=== FILE: README.md ===
# Network-container update path (Linux) — a Dafny model

This project models the Linux update path of the Azure Container Networking
Service's network-container manager: given a create-network-container
request, it decides whether anything is to be done, checks its preconditions
in a fixed order, builds the runtime configuration and the invocation
arguments of the CNI execution protocol (section 2 of the Container Network
Interface specification, with the non-standard verb `UPDATE`), flattens the
on-disk CNI configuration list (section 1 of the CNI specification) into one
plugin configuration, runs the `azure-vnet` plugin once, and turns the
plugin's exit into a result. On an unsuccessful exit that result is a plugin
error carrying only a message (Go's `go/types.Error` record, not the CNI
error result). The message is the one decoded from the CNI error result
(section 5 of the CNI specification) that the plugin writes to its standard
output, or a synthesized one when that output cannot be decoded.

Modules, leaves first:

- `Wrappers` — `Option` and `Result`.
- `JsonValue` — JSON as an abstract value tree (`JNull | JBool | JNum | JStr | JArr | JObj(map)`).
- `ConfList` — configuration-list flattening (`getNetworkConf`), with its failure cases.
- `Runtime` — the runtime configuration (`buildCNIRuntimeConf`) and invocation arguments (`args`).
- `GoQuote` — Go's `%q` quoting, used in the synthesized plugin error, and its reader.
- `Errors` — the error values the path can return.
- `PluginResult` — result classification (`pluginErr`).
- `NetworkContainers` — `createOrUpdateInterface` and `createOrUpdateWithOperation`, as pure sequencing.

Every filesystem and subprocess interaction is an input: a `World` record
holds the interface-lookup flag (and the error returned beside it), the stat
result of the plugin binary, the decoding of the orchestrator context, the
read-and-decoded configuration list, and what running the plugin gave. The
`Outcome` of a call records how it ended (`Returned(error-or-nil)` or
`Panicked`) and the ordered trace of interactions it performed, so "step X
does not happen" is a statement about the trace.

Three points where the code behaves differently from what the function's
names and signatures suggest; the model follows the code:

- A malformed configuration list (no `plugins` array, an empty one, a
  non-object first entry, a non-string `cniVersion` or `name`, or a JSON
  `null` document) makes the code panic on a type assertion or an index; it
  is not a returned parsing error. The model's outcome is `Panicked`. Only a
  document that is valid JSON but neither an object nor null is a returned
  error (`ConfigNotAnObject`).
- The plugin's diagnostic is decoded into Go's type-checker error record
  (`go/types`), not the CNI error type, so only the message survives; a CNI
  error code or details in the output are dropped. The model's
  `PluginError` therefore carries the message only.
- The `operation` argument of the update path is only logged; the command
  sent to the plugin is always `UPDATE`.

## Model

| member | source | states |
|---|---|---|
| NetworkContainers.CreateOrUpdateInterface | cns/networkcontainers/networkcontainers_linux.go:28-42 | WebApps returns nil touching nothing; otherwise the interface lookup comes first; a missing interface returns nil after the lookup only; an existing interface gives exactly the update path's status, its trace after the lookup; the plugin is run exactly when the type is not WebApps, the interface exists and every update precondition holds; effects happen in their fixed order |
| NetworkContainers.LookupErrorIgnored | cns/networkcontainers/networkcontainers_linux.go:35-39 | the error returned by the interface lookup never changes the outcome; only the flag decides |
| NetworkContainers.SucceedsExactlyWhen | cns/networkcontainers/networkcontainers_linux.go:28-42 | the call returns nil exactly when it is skipped or the plugin ran and exited cleanly |
| NetworkContainers.UpdateWithOperation | cns/networkcontainers/networkcontainers_linux.go:48-95 | the binary stat is the first effect; effects are ordered; the plugin is spawned iff binary not missing, address non-empty, context decoded and list well-formed; when spawned the trace is stat, decode, read, spawn and the plugin gets UPDATE, the container id as interface name, empty container id and namespace, the pod's namespace and name, and the flattened list, and the result is the classified plugin exit; otherwise the call fails or panics |
| NetworkContainers.OperationIgnored | cns/networkcontainers/networkcontainers_linux.go:48-49 | the outcome does not depend on the operation tag |
| NetworkContainers.MissingBinaryFailsFirst | cns/networkcontainers/networkcontainers_linux.go:51-55 | a binary that does not exist fails with the fixed missing-binary message after the stat alone, whatever the address |
| NetworkContainers.OtherStatErrorIgnored | cns/networkcontainers/networkcontainers_linux.go:51-55 | any other stat error behaves exactly like a found binary |
| NetworkContainers.EmptyAddressFailsBeforeDecoding | cns/networkcontainers/networkcontainers_linux.go:57-59 | an empty IP address fails with the fixed empty-address message before the context is decoded, the list is read or the plugin is run |
| NetworkContainers.DecodeFailureStopsBeforeConfig | cns/networkcontainers/networkcontainers_linux.go:61-66 | a context decode error is returned unchanged before the list is read or the plugin run |
| NetworkContainers.ConfigErrorsReturned | cns/networkcontainers/networkcontainers_linux.go:80-84 | an unreadable list, a list that is not JSON, and JSON that is neither an object nor null are returned as errors (not panics) after stat, decode and read, with no spawn |
| NetworkContainers.MalformedListPanics | cns/networkcontainers/networkcontainers_linux.go:80-84 | a list of the wrong shape panics after being read, and the plugin is never run |
| Runtime.BuildRuntimeConf | cns/networkcontainers/networkcontainers_linux.go:101-113 | never fails; container id, namespace path and interface name are the inputs; exactly two arguments, namespace key then name key, from which a plugin reads back the pod namespace and pod name |
| Runtime.PodIdentityReachesPlugin | cns/networkcontainers/networkcontainers_linux.go:101-113 | the invocation's argument pairs hold the pod namespace under K8S_POD_NAMESPACE, the pod name under K8S_POD_NAME, and no other key |
| Runtime.Args | cns/networkcontainers/networkcontainers_linux.go:131-140 | the command is the given action and the search path is /opt/cni/bin |
| Runtime.ArgsKeepRuntimeConf | cns/networkcontainers/networkcontainers_linux.go:131-140 | the runtime configuration can be read back exactly from the invocation arguments: container id, namespace, arguments and interface name are copied unchanged |
| Runtime.ArgsInjective | cns/networkcontainers/networkcontainers_linux.go:131-140 | for one action, two invocations are equal exactly when their runtime configurations are |
| ConfList.Flatten | cns/networkcontainers/networkcontainers_linux.go:149-161 | succeeds exactly on a well-formed list; the result is the first plugin entry with the list's cniVersion and name written over it and every other key kept; failures other than a non-object document are panics |
| ConfList.PluginsCheckedBeforeVersionAndName | cns/networkcontainers/networkcontainers_linux.go:156-161 | a missing or non-array plugins field fails on that, whatever cniVersion and name are |
| ConfList.EmptyPluginsFail | cns/networkcontainers/networkcontainers_linux.go:156-157 | an empty plugins array fails, whatever cniVersion and name are |
| ConfList.LaterPluginsDropped | cns/networkcontainers/networkcontainers_linux.go:156-157 | plugin entries after the first make no difference |
| ConfList.OtherTopLevelKeysIgnored | cns/networkcontainers/networkcontainers_linux.go:149-161 | top-level keys other than cniVersion, name and plugins make no difference |
| ConfList.ListValuesWin | cns/networkcontainers/networkcontainers_linux.go:159-161 | the list's cniVersion and name override those of the first entry |
| ConfList.WrapThenFlatten | cns/networkcontainers/networkcontainers_linux.go:155-161 | a plugin configuration wrapped in a list with its own version and name flattens back to itself |
| ConfList.AzureExample | cns/networkcontainers/networkcontainers_linux.go:143-170 | the list {cniVersion 0.4.0, name azure, plugins [{type vnet}]} flattens to {type vnet, cniVersion 0.4.0, name azure} |
| PluginResult.PluginErr | cns/networkcontainers/networkcontainers_linux.go:172-182 | a non-exit error, nil included, passes through unchanged; an exit error always becomes a plugin error, carrying the decoded message, or else the message SynthesizedMessage builds (the fixed prefix, the output quoted as `%q` does, then the decoder error), from which the raw output and the decoder error can be read back exactly |
| PluginResult.SynthesizedRoundTrip | cns/networkcontainers/networkcontainers_linux.go:176 | the synthesized message embeds the raw output and the decoder error so that both can be recovered exactly |
| PluginResult.PlainOutputVerbatim | cns/networkcontainers/networkcontainers_linux.go:176 | output without quotes, backslashes or control characters appears in the message verbatim between double quotes |
| PluginResult.CleanExitIgnoresOutput | cns/networkcontainers/networkcontainers_linux.go:181 | a clean exit is nil whatever the plugin wrote |
| PluginResult.BoomExample | cns/networkcontainers/networkcontainers_linux.go:173-178 | an exit error whose output decodes to message boom gives a plugin error with message exactly boom |
| GoQuote.EscapeChar | cns/networkcontainers/networkcontainers_linux.go:176 | a character is written as itself exactly when it is not a quote, a backslash or a control character; quote, backslash, BEL, BS, FF, LF, CR, TAB and VT get Go's one-letter escapes, and the other control characters a lowercase `\x` escape of their two hex digits |
| GoQuote.Escape | cns/networkcontainers/networkcontainers_linux.go:176 | quoting never shortens, and leaves a string of plain characters unchanged |
| GoQuote.UnquoteEscape | cns/networkcontainers/networkcontainers_linux.go:176 | reading back a quoted string gives the original string and stops exactly at the closing quote |

## Left out

- Filesystem and subprocess I/O (`os.Stat`, `ioutil.ReadFile`, `exec.Command`, `Run`, standard input, output and error wiring): their results are fields of `World`, and the trace records that they happened.
- Byte-level JSON decoding and encoding (`json.Unmarshal`, `json.Marshal`): the configuration list arrives already decoded as a JSON tree, and the flattened tree is what the plugin receives. Marshalling a decoded map cannot fail, so that error branch has no counterpart. Numbers are integers in the tree and pass through the model unchanged, where Go's `float64` round trip may alter them (a value above 2^53 is rounded) and a fraction cannot be written in the model at all.
- Decoding the orchestrator context into Kubernetes pod information, and decoding the plugin's output into the diagnostic record: both are done by the JSON library, so their results are inputs (`World.pod`, `RunResult.diag`).
- The text of the JSON decoder's errors: `ConfigNotAnObject` carries none.
- Serialising invocation arguments into environment variables (`AsEnv`): library code that is not part of this model.
- The error string of the diagnostic record (the `go/types` error prefixes a source position): only the message is modelled.
- `interfaceExists`: not part of this model; its flag and error are inputs.
- `setWeakHostOnInterface` and `deleteInterface`: they return nil and do nothing else.
- Logging calls.
- Timeouts, cancellation and concurrent requests: the code has none.
- GoQuote.EscapeChar: writes every non-ASCII character as itself, where Go escapes the non-printable ones (U+00A0, say, becomes `\u00a0`); the contract's "written as itself" is exact for ASCII only.
- PluginResult.PlainOutputVerbatim: "verbatim" is exact for ASCII output only, because the quoting model writes non-printable non-ASCII characters as themselves where Go escapes them.
- GoQuote.Escape: writes every non-ASCII character as itself, where Go escapes non-printable non-ASCII runes with `\u`/`\U` and invalid UTF-8 bytes with `\x`; the plugin output is modelled as characters, not bytes.

=== FILE: conflist.dfy ===
/** Flattening of a CNI network configuration list (section 1 of the
    Container Network Interface specification, "configuration lists") into
    the single plugin configuration that is written to the plugin's standard
    input: the first `plugins` entry, with the list's `cniVersion` and `name`
    copied over it. */
module ConfList {
  import opened Wrappers
  import opened JsonValue

  const VersionKey: string := "cniVersion"
  const PluginsKey: string := "plugins"
  const NameKey: string := "name"

  /** Why flattening produced nothing. Only `NotAnObject` is an error value
      returned to the caller (the JSON decoder refuses to fill a map from a
      non-object); every other case is a failed type assertion or an index
      out of range, that is, a Go panic. */
  datatype FlattenError =
    | NotAnObject
    | PluginsNotList
    | NoPlugins
    | FirstPluginNotObject
    | VersionNotString
    | NameNotString
  {
    predicate IsPanic() {
      !NotAnObject?
    }
  }

  /** The configuration list schema the flattening code relies on: an object
      with a string `cniVersion`, a string `name`, and a non-empty `plugins`
      array whose first entry is an object. */
  ghost predicate WellFormed(doc: Json) {
    && doc.JObj?
    && PluginsKey in doc.fields
    && doc.fields[PluginsKey].JArr?
    && |doc.fields[PluginsKey].items| > 0
    && doc.fields[PluginsKey].items[0].JObj?
    && VersionKey in doc.fields
    && doc.fields[VersionKey].JStr?
    && NameKey in doc.fields
    && doc.fields[NameKey].JStr?
  }

  /** The first plugin entry of a well-formed list. */
  ghost function FirstPlugin(doc: Json): map<string, Json>
    requires WellFormed(doc)
  {
    doc.fields[PluginsKey].items[0].fields
  }

  /** `out` is `first` with `version` and `name` written over the version and
      name keys, and with every other key of `first` kept as it was. */
  ghost predicate Overrides(out: map<string, Json>, first: map<string, Json>, version: Json, name: Json) {
    && out.Keys == first.Keys + {VersionKey, NameKey}
    && out[VersionKey] == version
    && out[NameKey] == name
    && forall k :: k in first && k != VersionKey && k != NameKey ==> out[k] == first[k]
  }

  /** Decoding the document into a Go `map[string]interface{}`: an object
      gives its fields, JSON null leaves the map nil (every lookup misses),
      anything else is a decode error. */
  function TopLevel(doc: Json): (r: Result<map<string, Json>, FlattenError>)
    ensures r.Success? <==> doc.JObj? || doc.JNull?
    ensures doc.JObj? ==> r == Success(doc.fields)
    ensures doc.JNull? ==> r == Success(map[])
  {
    match doc
    case JObj(m) => Success(m)
    case JNull => Success(map[])
    case _ => Failure(NotAnObject)
  }

  /** The flattening step of the configuration loader. */
  function Flatten(doc: Json): (r: Result<Json, FlattenError>)
    ensures r.Success? <==> WellFormed(doc)
    ensures r.Success? ==>
              r.value.JObj? &&
              Overrides(r.value.fields, FirstPlugin(doc), doc.fields[VersionKey], doc.fields[NameKey])
    ensures r.Failure? ==> (r.error.IsPanic() <==> doc.JObj? || doc.JNull?)
  {
    var m :- TopLevel(doc);
    var plugins := Get(m, PluginsKey);
    if !plugins.JArr? then Failure(PluginsNotList)
    else if |plugins.items| == 0 then Failure(NoPlugins)
    else if !plugins.items[0].JObj? then Failure(FirstPluginNotObject)
    else
      var version := Get(m, VersionKey);
      var name := Get(m, NameKey);
      if !version.JStr? then Failure(VersionNotString)
      else if !name.JStr? then Failure(NameNotString)
      else Success(JObj(plugins.items[0].fields[VersionKey := version][NameKey := name]))
  }

  /** A configuration list built from its three parts. */
  function MakeList(version: string, name: string, plugins: seq<Json>): Json {
    JObj(map[VersionKey := JStr(version), NameKey := JStr(name), PluginsKey := JArr(plugins)])
  }

  /** The `plugins` array is inspected before the version and name: a list
      without a usable first entry panics on that, whatever its version and
      name look like. */
  lemma PluginsCheckedBeforeVersionAndName(m: map<string, Json>)
    requires PluginsKey !in m || !m[PluginsKey].JArr?
    ensures Flatten(JObj(m)) == Failure(PluginsNotList)
  {
  }

  /** An empty `plugins` array panics (index out of range), whatever the
      version and name are. */
  lemma EmptyPluginsFail(m: map<string, Json>)
    requires PluginsKey in m && m[PluginsKey] == JArr([])
    ensures Flatten(JObj(m)) == Failure(NoPlugins)
  {
  }

  /** Only the first plugin entry matters: later entries are dropped. */
  lemma LaterPluginsDropped(m: map<string, Json>, first: Json, rest: seq<Json>)
    ensures Flatten(JObj(m[PluginsKey := JArr([first] + rest)])) == Flatten(JObj(m[PluginsKey := JArr([first])]))
  {
  }

  /** Top-level keys other than `cniVersion`, `name` and `plugins` never
      reach the flattened configuration. */
  lemma OtherTopLevelKeysIgnored(m: map<string, Json>)
    ensures Flatten(JObj(m)) == Flatten(JObj(map k | k in m && k in {VersionKey, NameKey, PluginsKey} :: m[k]))
  {
  }

  /** Flattening a list always takes the list's version and name, even when
      the first plugin entry carries different ones. */
  lemma ListValuesWin(version: string, name: string, first: map<string, Json>, rest: seq<Json>)
    ensures Flatten(MakeList(version, name, [JObj(first)] + rest))
            == Success(JObj(first[VersionKey := JStr(version)][NameKey := JStr(name)]))
  {
  }

  /** Round trip: a plugin configuration that already carries a version and a
      name comes back unchanged from being wrapped in a list with those values
      and flattened. */
  lemma WrapThenFlatten(plugin: map<string, Json>, version: string, name: string)
    requires VersionKey in plugin && plugin[VersionKey] == JStr(version)
    requires NameKey in plugin && plugin[NameKey] == JStr(name)
    ensures Flatten(MakeList(version, name, [JObj(plugin)])) == Success(JObj(plugin))
  {
    var r := Flatten(MakeList(version, name, [JObj(plugin)]));
    assert r.value.fields == plugin;
  }

  /** The worked example: `{"cniVersion":"0.4.0","name":"azure","plugins":[{"type":"vnet"}]}`
      flattens to `{"type":"vnet","cniVersion":"0.4.0","name":"azure"}`. */
  lemma AzureExample()
    ensures Flatten(MakeList("0.4.0", "azure", [JObj(map["type" := JStr("vnet")])]))
            == Success(JObj(map["type" := JStr("vnet"), VersionKey := JStr("0.4.0"), NameKey := JStr("azure")]))
  {
  }
}

=== FILE: errors.dfy ===
/** The error values the update path can hand back to its caller, one
    constructor per distinct Go error. */
module Errors {
  import Wrappers

  const BinaryNotFoundText: string := "[Azure CNS] Unable to find azure-vnet under /opt/cni/bin/. Cannot continue"
  const MissingIPAddressText: string := "[Azure CNS] IPAddress in IPConfiguration of createNetworkContainerRequest is nil"

  datatype Error =
    | BinaryNotFound                      // the plugin binary does not exist
    | MissingIPAddress                    // the request's IP address is empty
    | ContextDecodeFailed(reason: string) // the orchestrator context is not pod information
    | ConfigReadFailed(reason: string)    // the configuration list could not be read
    | ConfigDecodeFailed(reason: string)  // the configuration list is not valid JSON
    | ConfigNotAnObject                   // the configuration list is JSON but not an object
    | ExitError(status: int)              // the plugin exited unsuccessfully
    | ExecFailed(reason: string)          // the plugin could not be run, or its pipes failed
    | PluginError(msg: string)            // the plugin's diagnostic, decoded or synthesized

  /** The fixed message of the two precondition errors; the other errors
      have no message of their own in this file (they carry the text, status
      or nothing they were built from). */
  function FixedText(e: Error): (r: Wrappers.Option<string>)
    ensures r.Some? <==> e.BinaryNotFound? || e.MissingIPAddress?
    ensures e.BinaryNotFound? ==> r == Wrappers.Some(BinaryNotFoundText)
    ensures e.MissingIPAddress? ==> r == Wrappers.Some(MissingIPAddressText)
  {
    match e
    case BinaryNotFound => Wrappers.Some(BinaryNotFoundText)
    case MissingIPAddress => Wrappers.Some(MissingIPAddressText)
    case _ => Wrappers.None
  }
}

=== FILE: goquote.dfy ===
/** Go's `%q` verb on a string (`strconv.Quote`): the text between double
    quotes, with quote, backslash and control characters escaped, and the
    reader that turns such a quoted text back into the original string. */
module GoQuote {
  import opened Wrappers

  const LowerHex: string := "0123456789abcdef"

  /** ASCII control characters, which Go writes as escapes. */
  predicate IsControl(c: char) {
    c as int < 0x20 || c as int == 0x7f
  }

  /** Characters written as they are. */
  predicate IsLiteral(c: char) {
    c != '"' && c != '\\' && !IsControl(c)
  }

  predicate IsHexDigit(d: char) {
    ('0' <= d <= '9') || ('a' <= d <= 'f') || ('A' <= d <= 'F')
  }

  function HexValue(d: char): (v: nat)
    requires IsHexDigit(d)
    ensures v < 16
  {
    if '0' <= d <= '9' then (d - '0') as nat
    else if 'a' <= d <= 'f' then (d - 'a') as nat + 10
    else (d - 'A') as nat + 10
  }

  /** The character a one-letter escape such as `\n` stands for. */
  function SimpleEscape(e: char): Option<char> {
    match e
    case 'a' => Some(7 as char)
    case 'b' => Some(8 as char)
    case 'f' => Some(12 as char)
    case 'n' => Some(10 as char)
    case 'r' => Some(13 as char)
    case 't' => Some(9 as char)
    case 'v' => Some(11 as char)
    case '\\' => Some('\\')
    case '"' => Some('"')
    case _ => None
  }

  /** The letter of the one-letter escape Go uses for `c`, if any. */
  function EscapeLetter(c: char): (r: Option<char>)
    ensures r.Some? ==> SimpleEscape(r.value) == Some(c)
  {
    if c == '"' then Some('"')
    else if c == '\\' then Some('\\')
    else if c as int == 7 then Some('a')
    else if c as int == 8 then Some('b')
    else if c as int == 12 then Some('f')
    else if c as int == 10 then Some('n')
    else if c as int == 13 then Some('r')
    else if c as int == 9 then Some('t')
    else if c as int == 11 then Some('v')
    else None
  }

  /** How one character is written inside the quotes. */
  function EscapeChar(c: char): (r: string)
    ensures |r| > 0
    ensures IsLiteral(c) <==> r == [c]
    ensures EscapeLetter(c).Some? ==> r == ['\\', EscapeLetter(c).value]
    ensures EscapeLetter(c).None? && IsControl(c) ==>
              r == ['\\', 'x', LowerHex[c as int / 16], LowerHex[c as int % 16]]
  {
    if EscapeLetter(c).Some? then ['\\', EscapeLetter(c).value]
    else if IsControl(c) then "\\x" + [LowerHex[c as int / 16], LowerHex[c as int % 16]]
    else [c]
  }

  /** The text between the quotes. */
  function Escape(s: string): (r: string)
    ensures |r| >= |s|
    ensures (forall i :: 0 <= i < |s| ==> IsLiteral(s[i])) ==> r == s
  {
    if |s| == 0 then [] else EscapeChar(s[0]) + Escape(s[1..])
  }

  /** What `%q` prints for `s`. */
  function Quote(s: string): string {
    "\"" + Escape(s) + "\""
  }

  function Prepend(c: char, o: Option<(string, string)>): Option<(string, string)> {
    match o
    case None => None
    case Some((body, rest)) => Some(([c] + body, rest))
  }

  /** Reads a quoted text whose opening quote has already been consumed: the
      decoded body up to the first unescaped quote, and what follows that
      quote. Undefined escapes and a missing closing quote give None. */
  function Unquote(t: string): (r: Option<(string, string)>)
    ensures r.Some? ==> |r.value.1| < |t| && r.value.1 == t[|t| - |r.value.1|..]
    decreases |t|
  {
    if |t| == 0 then None
    else if t[0] == '"' then Some(([], t[1..]))
    else if t[0] != '\\' then Prepend(t[0], Unquote(t[1..]))
    else if |t| >= 2 && SimpleEscape(t[1]).Some? then Prepend(SimpleEscape(t[1]).value, Unquote(t[2..]))
    else if |t| >= 4 && t[1] == 'x' && IsHexDigit(t[2]) && IsHexDigit(t[3]) then
      Prepend((HexValue(t[2]) * 16 + HexValue(t[3])) as char, Unquote(t[4..]))
    else None
  }

  lemma LowerHexDigits(i: nat)
    requires i < 16
    ensures IsHexDigit(LowerHex[i]) && HexValue(LowerHex[i]) == i
  {
  }

  /** Reading back one escaped character. */
  lemma UnquoteEscapeChar(c: char, rest: string)
    ensures Unquote(EscapeChar(c) + rest) == Prepend(c, Unquote(rest))
  {
    var t := EscapeChar(c) + rest;
    if EscapeLetter(c).Some? {
      assert t[0] == '\\' && t[1] == EscapeLetter(c).value && t[2..] == rest;
    } else if IsControl(c) {
      var n := c as int;
      LowerHexDigits(n / 16);
      LowerHexDigits(n % 16);
      assert t[0] == '\\' && t[1] == 'x' && SimpleEscape(t[1]).None?;
      assert t[2] == LowerHex[n / 16] && t[3] == LowerHex[n % 16] && t[4..] == rest;
      assert (HexValue(t[2]) * 16 + HexValue(t[3])) as char == c;
    } else {
      assert t[0] == c && t[1..] == rest;
    }
  }

  /** Round trip: the reader recovers exactly the escaped string, and stops
      at the closing quote, leaving whatever follows it untouched. */
  lemma {:induction false} UnquoteEscape(s: string, rest: string)
    ensures Unquote(Escape(s) + "\"" + rest) == Some((s, rest))
    decreases |s|
  {
    if |s| == 0 {
      assert Escape(s) + "\"" + rest == "\"" + rest;
    } else {
      assert Escape(s) + "\"" + rest == EscapeChar(s[0]) + (Escape(s[1..]) + "\"" + rest);
      UnquoteEscapeChar(s[0], Escape(s[1..]) + "\"" + rest);
      UnquoteEscape(s[1..], rest);
      assert [s[0]] + s[1..] == s;
    }
  }
}

=== FILE: json.dfy ===
/** The generic JSON value Go's `encoding/json` produces when it decodes into
    `interface{}`: objects become maps (key order is not kept), arrays become
    sequences. Numbers are kept as integers and pass through unchanged; Go
    holds them as `float64`, so its decode-and-encode round trip can alter
    large values and fractions, which this tree does not show. */
module JsonValue {

  datatype Json =
    | JNull
    | JBool(b: bool)
    | JNum(n: int)
    | JStr(s: string)
    | JArr(items: seq<Json>)
    | JObj(fields: map<string, Json>)

  /** The value stored under `key`, or JNull when the key is absent: what a
      Go index expression on a `map[string]interface{}` yields (a nil
      interface). */
  function Get(m: map<string, Json>, key: string): (v: Json)
    ensures key !in m ==> v == JNull
    ensures key in m ==> v == m[key]
  {
    if key in m then m[key] else JNull
  }
}

=== FILE: network_containers.dfy ===
/** The update path of the Linux network-container manager: decide whether
    anything is to be done for a network-container request, check the
    preconditions in their fixed order, build the runtime configuration and
    the flattened plugin configuration, run the `azure-vnet` plugin once, and
    classify its result.

    Every filesystem and subprocess interaction is an input (`World`), and
    the outcome records which of them were performed (`trace`). */
module NetworkContainers {
  import opened Wrappers
  import opened JsonValue
  import opened Errors
  import opened Runtime
  import ConfList
  import PluginResult

  const BinaryPath: string := "/opt/cni/bin/azure-vnet"
  const ConfListPath: string := "/etc/cni/net.d/10-azure.conflist"

  /** The network-container type tag; only WebApps is singled out. The name
      carried by `OtherType` is never the WebApps tag itself: a request whose
      tag equals WebApps is always written `WebApps`. */
  datatype ContainerType = WebApps | OtherType(name: string)

  /** The parts of a create-network-container request this path reads. */
  datatype Request = Request(ncType: ContainerType, ncId: string, ipAddress: string)

  /** Kubernetes pod metadata decoded from the orchestrator context. */
  datatype PodInfo = PodInfo(podName: string, podNamespace: string)

  /** What a stat of the plugin binary reported. */
  datatype StatResult = Found | NotExist | StatFailed(reason: string)

  /** What reading and decoding the configuration list file gave. */
  datatype ConfigFile = Unreadable(reason: string) | Malformed(reason: string) | Parsed(doc: Json)

  /** The errors running a subprocess can return: an unsuccessful exit, or a
      failure to start it or to move data through its pipes. */
  type RunError = e: Error | e.ExitError? || e.ExecFailed? witness ExecFailed("")

  /** What running the plugin gave: the error `Run` returned, the captured
      standard output, and that output decoded as a diagnostic. */
  datatype RunResult = RunResult(err: Option<RunError>, stdout: string, diag: PluginResult.DiagDecode)

  /** The answers of everything outside the model. `lookupErr` is the error
      the interface lookup returns next to its flag; `pod` is the decoding of
      the request's orchestrator context. */
  datatype World = World(
    interfaceFound: bool,
    lookupErr: Option<string>,
    stat: StatResult,
    pod: Result<PodInfo, string>,
    config: ConfigFile,
    run: RunResult)

  /** An interaction with the outside, in the order the code performs them. */
  datatype Effect =
    | LookUpInterface(id: string)
    | StatBinary(path: string)
    | DecodeContext
    | ReadConfig(path: string)
    | Spawn(path: string, args: InvokeArgs, stdin: Json)

  /** How the call ends: returning an error value (None is Go's nil), or
      panicking on a malformed configuration list. */
  datatype Status = Returned(err: Option<Error>) | Panicked(cause: ConfList.FlattenError)

  datatype Outcome = Outcome(status: Status, trace: seq<Effect>)

  function Stage(e: Effect): nat {
    match e
    case LookUpInterface(_) => 0
    case StatBinary(_) => 1
    case DecodeContext => 2
    case ReadConfig(_) => 3
    case Spawn(_, _, _) => 4
  }

  /** Effects occur in their fixed order, each at most once. */
  ghost predicate Ordered(t: seq<Effect>) {
    forall i, j :: 0 <= i < j < |t| ==> Stage(t[i]) < Stage(t[j])
  }

  ghost predicate Spawned(o: Outcome) {
    exists e :: e in o.trace && e.Spawn?
  }

  /** Every precondition of the update path holds, so the plugin is run. */
  ghost predicate Ready(req: Request, w: World) {
    && !w.stat.NotExist?
    && req.ipAddress != ""
    && w.pod.Success?
    && w.config.Parsed?
    && ConfList.WellFormed(w.config.doc)
  }

  /** The invocation the update path performs once it is ready: the UPDATE
      verb, the network-container id as interface name, empty container id
      and namespace path, the pod's namespace and name as arguments, and the
      flattened configuration list on standard input. */
  ghost predicate IsUpdateInvocation(e: Effect, req: Request, pod: PodInfo, doc: Json) {
    && e.Spawn?
    && e.path == BinaryPath
    && e.args.command == UpdateCommand
    && e.args.path == PluginDir
    && e.args.ifName == req.ncId
    && e.args.containerId == ""
    && e.args.netNs == ""
    && e.args.pluginArgs == [(PodNamespaceKey, pod.podNamespace), (PodNameKey, pod.podName)]
    && ConfList.Flatten(doc) == Success(e.stdin)
  }

  /** The update path proper. The operation tag is only logged. */
  function UpdateWithOperation(req: Request, operation: string, w: World): (o: Outcome)
    ensures Ordered(o.trace)
    ensures |o.trace| > 0 && o.trace[0] == StatBinary(BinaryPath)
    ensures Spawned(o) <==> Ready(req, w)
    ensures Ready(req, w) ==>
              && |o.trace| == 4
              && o.trace[..3] == [StatBinary(BinaryPath), DecodeContext, ReadConfig(ConfListPath)]
              && IsUpdateInvocation(o.trace[|o.trace| - 1], req, w.pod.value, w.config.doc)
              && o.status == Returned(PluginResult.PluginErr(w.run.err, w.run.stdout, w.run.diag))
    ensures !Ready(req, w) ==> o.status.Panicked? || o.status.err.Some?
  {
    var t0 := [StatBinary(BinaryPath)];
    if w.stat.NotExist? then Outcome(Returned(Some(BinaryNotFound)), t0)
    else if req.ipAddress == "" then Outcome(Returned(Some(MissingIPAddress)), t0)
    else
      var t1 := [StatBinary(BinaryPath), DecodeContext];
      match w.pod
      case Failure(reason) => Outcome(Returned(Some(ContextDecodeFailed(reason))), t1)
      case Success(pod) =>
        var rt := BuildRuntimeConf(pod.podName, pod.podNamespace, "", "", req.ncId);
        var t2 := [StatBinary(BinaryPath), DecodeContext, ReadConfig(ConfListPath)];
        match w.config
        case Unreadable(reason) => Outcome(Returned(Some(ConfigReadFailed(reason))), t2)
        case Malformed(reason) => Outcome(Returned(Some(ConfigDecodeFailed(reason))), t2)
        case Parsed(doc) =>
          match ConfList.Flatten(doc)
          case Failure(cause) =>
            if cause.IsPanic() then Outcome(Panicked(cause), t2)
            else Outcome(Returned(Some(ConfigNotAnObject)), t2)
          case Success(flat) =>
            var spawn := Spawn(BinaryPath, Args(UpdateCommand, rt), flat);
            assert (t2 + [spawn])[3] == spawn && (t2 + [spawn])[..3] == t2;
            Outcome(Returned(PluginResult.PluginErr(w.run.err, w.run.stdout, w.run.diag)), t2 + [spawn])
  }

  /** The entry point: a WebApps container or a missing interface is a
      silent success, otherwise the update path runs. */
  function CreateOrUpdateInterface(req: Request, w: World): (o: Outcome)
    ensures Ordered(o.trace)
    ensures req.ncType.WebApps? ==> o == Outcome(Returned(None), [])
    ensures !req.ncType.WebApps? ==> |o.trace| > 0 && o.trace[0] == LookUpInterface(req.ncId)
    ensures !req.ncType.WebApps? && !w.interfaceFound ==> o == Outcome(Returned(None), [LookUpInterface(req.ncId)])
    ensures Spawned(o) <==> !req.ncType.WebApps? && w.interfaceFound && Ready(req, w)
    ensures !req.ncType.WebApps? && w.interfaceFound ==>
              var u := UpdateWithOperation(req, UpdateCommand, w);
              o == Outcome(u.status, [LookUpInterface(req.ncId)] + u.trace)
  {
    if req.ncType.WebApps? then Outcome(Returned(None), [])
    else if !w.interfaceFound then Outcome(Returned(None), [LookUpInterface(req.ncId)])
    else
      var u := UpdateWithOperation(req, UpdateCommand, w);
      var o := Outcome(u.status, [LookUpInterface(req.ncId)] + u.trace);
      assert forall e :: e in o.trace && e.Spawn? ==> e in u.trace;
      assert forall e :: e in u.trace ==> e in o.trace;
      o
  }

  /** The error returned next to the interface-lookup flag plays no part:
      only the flag decides. */
  lemma LookupErrorIgnored(req: Request, w: World, e: Option<string>)
    ensures CreateOrUpdateInterface(req, w) == CreateOrUpdateInterface(req, w.(lookupErr := e))
  {
  }

  /** The operation tag passed to the update path changes nothing: the
      plugin is always sent UPDATE. */
  lemma OperationIgnored(req: Request, op1: string, op2: string, w: World)
    ensures UpdateWithOperation(req, op1, w) == UpdateWithOperation(req, op2, w)
  {
  }

  /** A missing binary fails first, before the IP address is looked at and
      before anything else is touched. */
  lemma MissingBinaryFailsFirst(req: Request, op: string, w: World)
    requires w.stat.NotExist?
    ensures UpdateWithOperation(req, op, w) == Outcome(Returned(Some(BinaryNotFound)), [StatBinary(BinaryPath)])
    ensures FixedText(UpdateWithOperation(req, op, w).status.err.value) == Some(BinaryNotFoundText)
  {
  }

  /** A stat error other than "does not exist" is ignored: the path goes on
      exactly as if the binary had been found. */
  lemma OtherStatErrorIgnored(req: Request, op: string, w: World, reason: string)
    ensures UpdateWithOperation(req, op, w.(stat := StatFailed(reason))) == UpdateWithOperation(req, op, w.(stat := Found))
  {
  }

  /** An empty IP address fails before the orchestrator context is decoded,
      the configuration is read or the plugin is run. */
  lemma EmptyAddressFailsBeforeDecoding(req: Request, op: string, w: World)
    requires !w.stat.NotExist? && req.ipAddress == ""
    ensures UpdateWithOperation(req, op, w) == Outcome(Returned(Some(MissingIPAddress)), [StatBinary(BinaryPath)])
    ensures FixedText(UpdateWithOperation(req, op, w).status.err.value) == Some(MissingIPAddressText)
  {
  }

  /** An undecodable orchestrator context is returned as it is, before the
      configuration is read or the plugin is run. */
  lemma DecodeFailureStopsBeforeConfig(req: Request, op: string, w: World)
    requires !w.stat.NotExist? && req.ipAddress != "" && w.pod.Failure?
    ensures UpdateWithOperation(req, op, w)
            == Outcome(Returned(Some(ContextDecodeFailed(w.pod.error))), [StatBinary(BinaryPath), DecodeContext])
  {
  }

  /** The errors of loading the configuration list are returned as they
      are, after the read and before any spawn: an unreadable file, a file
      that is not JSON, and JSON that is neither an object nor null (the
      last is a returned error, not a panic). */
  lemma ConfigErrorsReturned(req: Request, op: string, w: World)
    requires !w.stat.NotExist? && req.ipAddress != "" && w.pod.Success?
    ensures var o := UpdateWithOperation(req, op, w);
            var t := [StatBinary(BinaryPath), DecodeContext, ReadConfig(ConfListPath)];
            && (w.config.Unreadable? ==> o == Outcome(Returned(Some(ConfigReadFailed(w.config.reason))), t))
            && (w.config.Malformed? ==> o == Outcome(Returned(Some(ConfigDecodeFailed(w.config.reason))), t))
            && (w.config.Parsed? && !w.config.doc.JObj? && !w.config.doc.JNull? ==>
                  o == Outcome(Returned(Some(ConfigNotAnObject)), t))
  {
  }

  /** A configuration list that decodes to an object (or null) of the wrong
      shape panics after being read, and the plugin is never run. */
  lemma MalformedListPanics(req: Request, op: string, w: World)
    requires !w.stat.NotExist? && req.ipAddress != "" && w.pod.Success?
    requires w.config.Parsed? && (w.config.doc.JObj? || w.config.doc.JNull?) && !ConfList.WellFormed(w.config.doc)
    ensures var o := UpdateWithOperation(req, op, w);
            && o.status.Panicked?
            && o.trace == [StatBinary(BinaryPath), DecodeContext, ReadConfig(ConfListPath)]
  {
  }

  /** The call returns nil exactly when it was skipped (WebApps, or no
      interface to update) or the plugin ran and exited cleanly. */
  lemma SucceedsExactlyWhen(req: Request, w: World)
    ensures CreateOrUpdateInterface(req, w).status == Returned(None)
            <==> req.ncType.WebApps? || !w.interfaceFound || (Ready(req, w) && w.run.err.None?)
  {
    if !req.ncType.WebApps? && w.interfaceFound && Ready(req, w) {
      var u := UpdateWithOperation(req, UpdateCommand, w);
      assert u.status == Returned(PluginResult.PluginErr(w.run.err, w.run.stdout, w.run.diag));
    }
  }
}

=== FILE: plugin_result.dfy ===
/** Classification of the plugin's exit: a clean exit or a failure to run
    passes through, an unsuccessful exit becomes a plugin error carrying only a
    message (Go's `go/types.Error` record, not the CNI error result), decoded
    from the plugin's standard output or synthesized around it. The plugin
    writes a CNI error result (section 5 of the Container Network Interface
    specification) there, but only its message is kept. */
module PluginResult {
  import opened Wrappers
  import opened Errors
  import GoQuote

  const DiagnosticPrefix: string := "netplugin failed but error parsing its diagnostic message "

  /** What decoding the plugin's standard output into the diagnostic record
      gave: the record's message, or the decoder's error text. */
  datatype DiagDecode = Decoded(msg: string) | Undecodable(reason: string)

  /** The message written when the output cannot be decoded: the output
      quoted as `%q` does, then the decoder's error. */
  function SynthesizedMessage(output: string, reason: string): string {
    DiagnosticPrefix + GoQuote.Quote(output) + ": " + reason
  }

  /** Reads a synthesized message back into the raw output and the decoder
      error it embeds. */
  function ParseSynthesized(msg: string): Option<(string, string)> {
    var n := |DiagnosticPrefix| + 1;
    if |msg| < n || msg[..n] != DiagnosticPrefix + "\"" then None
    else
      match GoQuote.Unquote(msg[n..])
      case None => None
      case Some((output, rest)) =>
        if |rest| >= 2 && rest[..2] == ": " then Some((output, rest[2..])) else None
  }

  /** No information is lost: the raw output and the decoder error can both
      be recovered, exactly, from the synthesized message. */
  lemma SynthesizedRoundTrip(output: string, reason: string)
    ensures ParseSynthesized(SynthesizedMessage(output, reason)) == Some((output, reason))
  {
    var msg := SynthesizedMessage(output, reason);
    var n := |DiagnosticPrefix| + 1;
    assert msg == DiagnosticPrefix + "\"" + (GoQuote.Escape(output) + "\"" + (": " + reason));
    assert msg[..n] == DiagnosticPrefix + "\"";
    assert msg[n..] == GoQuote.Escape(output) + "\"" + (": " + reason);
    GoQuote.UnquoteEscape(output, ": " + reason);
    assert (": " + reason)[2..] == reason;
  }

  /** When the output holds no quote, backslash or control character it
      appears in the message verbatim, between double quotes. */
  lemma PlainOutputVerbatim(output: string, reason: string)
    requires forall i :: 0 <= i < |output| ==> GoQuote.IsLiteral(output[i])
    ensures SynthesizedMessage(output, reason) == DiagnosticPrefix + "\"" + output + "\"" + ": " + reason
  {
  }

  predicate IsExitError(err: Option<Error>) {
    err.Some? && err.value.ExitError?
  }

  /** The result classification applied to the error returned by running the
      plugin and to what the plugin wrote on its standard output. */
  function PluginErr(err: Option<Error>, output: string, diag: DiagDecode): (r: Option<Error>)
    ensures !IsExitError(err) ==> r == err
    ensures IsExitError(err) ==> r.Some? && r.value.PluginError?
    ensures IsExitError(err) && diag.Decoded? ==> r.value.msg == diag.msg
    ensures IsExitError(err) && diag.Undecodable? ==> r.value.msg == SynthesizedMessage(output, diag.reason)
    ensures IsExitError(err) && diag.Undecodable? ==> ParseSynthesized(r.value.msg) == Some((output, diag.reason))
  {
    if IsExitError(err) then
      match diag
      case Decoded(msg) => Some(PluginError(msg))
      case Undecodable(reason) =>
        SynthesizedRoundTrip(output, reason);
        Some(PluginError(SynthesizedMessage(output, reason)))
    else err
  }

  /** A clean exit is a success whatever the plugin wrote. */
  lemma CleanExitIgnoresOutput(output: string, diag: DiagDecode)
    ensures PluginErr(None, output, diag) == None
  {
  }

  /** The worked example: an unsuccessful exit whose output decodes to the
      message "boom" gives a plugin error whose message is exactly "boom". */
  lemma BoomExample(status: int)
    ensures PluginErr(Some(ExitError(status)), "{\"msg\":\"boom\"}", Decoded("boom")) == Some(PluginError("boom"))
  {
  }
}

=== FILE: runtime.dfy ===
/** The plugin parameters of the CNI execution protocol (section 2 of the
    Container Network Interface specification): the runtime configuration
    built for one call, and the invocation arguments derived from it. */
module Runtime {
  import opened Wrappers

  const PodNamespaceKey: string := "K8S_POD_NAMESPACE"
  const PodNameKey: string := "K8S_POD_NAME"

  /** The directory handed to the plugin as its search path. */
  const PluginDir: string := "/opt/cni/bin"

  /** The non-standard verb this code sends to the plugin. */
  const UpdateCommand: string := "UPDATE"

  /** The runtime configuration: container id, network namespace path,
      interface name and the ordered key/value plugin arguments. */
  datatype RuntimeConf = RuntimeConf(
    containerId: string,
    netNs: string,
    ifName: string,
    args: seq<(string, string)>)

  /** The invocation arguments the plugin receives as its environment. */
  datatype InvokeArgs = InvokeArgs(
    command: string,
    containerId: string,
    netNs: string,
    pluginArgs: seq<(string, string)>,
    ifName: string,
    path: string)

  /** The value of the first pair with the given key, as a plugin reading its
      arguments would find it. */
  function ArgValue(args: seq<(string, string)>, key: string): (r: Option<string>)
    ensures r.None? <==> forall i :: 0 <= i < |args| ==> args[i].0 != key
    ensures r.Some? ==> exists i :: 0 <= i < |args| && args[i] == (key, r.value) && forall j :: 0 <= j < i ==> args[j].0 != key
  {
    if |args| == 0 then None
    else if args[0].0 == key then Some(args[0].1)
    else
      ArgValue(args[1..], key)
  }

  /** Builds the runtime configuration for one pod. It cannot fail. */
  function BuildRuntimeConf(podName: string, podNs: string, sandboxId: string, netNsPath: string, ifName: string): (rt: RuntimeConf)
    ensures rt.containerId == sandboxId && rt.netNs == netNsPath && rt.ifName == ifName
    ensures ArgValue(rt.args, PodNamespaceKey) == Some(podNs)
    ensures ArgValue(rt.args, PodNameKey) == Some(podName)
    ensures |rt.args| == 2 && rt.args[0].0 == PodNamespaceKey && rt.args[1].0 == PodNameKey
  {
    RuntimeConf(sandboxId, netNsPath, ifName, [(PodNamespaceKey, podNs), (PodNameKey, podName)])
  }

  /** Maps an action and a runtime configuration to invocation arguments. */
  function Args(action: string, rt: RuntimeConf): (a: InvokeArgs)
    ensures a.command == action && a.path == PluginDir
  {
    InvokeArgs(action, rt.containerId, rt.netNs, rt.args, rt.ifName, PluginDir)
  }

  /** The runtime configuration an invocation was derived from, read back
      out of the invocation arguments. */
  function ConfOf(a: InvokeArgs): RuntimeConf {
    RuntimeConf(a.containerId, a.netNs, a.ifName, a.pluginArgs)
  }

  /** Invocation arguments lose nothing of the runtime configuration: it can
      be read back exactly, and only the command and the fixed search path
      are added. */
  lemma ArgsKeepRuntimeConf(action: string, rt: RuntimeConf)
    ensures ConfOf(Args(action, rt)) == rt
  {
  }

  /** Two invocations with the same action are equal exactly when their
      runtime configurations are. */
  lemma ArgsInjective(action: string, rt1: RuntimeConf, rt2: RuntimeConf)
    ensures Args(action, rt1) == Args(action, rt2) <==> rt1 == rt2
  {
    ArgsKeepRuntimeConf(action, rt1);
    ArgsKeepRuntimeConf(action, rt2);
  }

  /** The plugin can read the pod's identity back out of the arguments it is
      given: the namespace under K8S_POD_NAMESPACE, the name under
      K8S_POD_NAME, and no other key. */
  lemma PodIdentityReachesPlugin(action: string, podName: string, podNs: string, sandboxId: string, netNsPath: string, ifName: string)
    ensures var a := Args(action, BuildRuntimeConf(podName, podNs, sandboxId, netNsPath, ifName));
            && ArgValue(a.pluginArgs, PodNamespaceKey) == Some(podNs)
            && ArgValue(a.pluginArgs, PodNameKey) == Some(podName)
            && forall key :: key != PodNamespaceKey && key != PodNameKey ==> ArgValue(a.pluginArgs, key).None?
  {
  }
}

=== FILE: wrappers.dfy ===
/** Failure-carrying datatypes shared by the model: Go's `(value, error)`
    returns become `Result`, and a possibly-nil value becomes `Option`. */
module Wrappers {

  datatype Option<+T> = None | Some(value: T)

  datatype Result<+R, +E> = Success(value: R) | Failure(error: E) {

    predicate IsFailure() {
      Failure?
    }

    function PropagateFailure<U>(): Result<U, E>
      requires Failure?
    {
      Failure(error)
    }

    function Extract(): R
      requires Success?
    {
      value
    }
  }
}
